=== FILE: README.md ===
# Sign-language detector: a Dafny model of its decision rules

The repository is a small web app: a Flask server (`app.py`) that takes an
uploaded image, runs a Keras classifier on it and answers with the predicted
ASL letter, and a browser script (`script.js`) that uploads a file or a webcam
frame and renders the answer. Under the plumbing sit a few pure decision rules,
and this project models them:

- the upload filter `allowed_file` (module `Upload`);
- `np.argmax` and the `str(index)` key into the class mapping (module `Classify`);
- start-up loading and the decision tree of the `/predict` route, with its
  status codes and JSON bodies (module `Server`);
- JavaScript truthiness and property access on parsed JSON (module `Js`);
- the `aslAlphabet` table, the alphabet grid, `showLetterInfo` and
  `displayResult` (module `Render`);
- the page's control state: the camera `stream` global, the webcam buttons,
  the loading indicator, requests in flight, the result panel and alerts
  (module `Client`);
- the meeting point of the two: the server's reply as the page receives it
  (module `Contract`).

Foreign calls become parameters: whether the model and mapping loaded, whether
preprocessing produced an array, the score row the model returned, whether the
browser granted a camera, and how a POST ended.

Three behaviours of the code stand out, and the model states each as it is:

- The page never looks at the HTTP status, so it renders the server's
  `{error: ...}` bodies as a prediction of letter A.
- The server sends `image_url` while the page reads `image`, so no reply ever
  changes the result image.
- `stopWebcam` leaves `stream` set, so `captureImage` still sends a frame after
  the camera was stopped. Only a direct call reaches it, since the capture
  button is disabled by then.

## Model

| member | source | states |
|---|---|---|
| Upload.Lower | app.py:33 | ASCII lower-casing standing in for `.lower()`: the length is kept and each character is lower-cased, with only A to Z changing |
| Upload.Extension | app.py:33 | `rsplit('.', 1)[1]`: no result exactly when the name has no dot; otherwise a dot-free suffix that, after a dot, ends the name |
| Upload.AllowedFile | app.py:32-33 | a name without a dot is rejected; an accepted name is at least four characters |
| Upload.ExtensionOfJoin | app.py:33 | splitting at the last dot recovers any dot-free extension joined to any stem, whatever dots the stem holds |
| Upload.AllowedJoin | app.py:32-33 | a name stem + "." + ext is accepted exactly when lower(ext) is png, jpg or jpeg |
| Upload.AllowedIgnoresCase | app.py:33 | a name is accepted exactly when its lower-cased form is |
| Upload.SameUpToCase | app.py:33 | names equal up to letter case are accepted or rejected together |
| Upload.TrailingDotRejected | app.py:33 | a name ending in a dot (empty extension) is rejected |
| Upload.DoubleExtensionRejected | app.py:33 | "a.png.exe" is rejected |
| Upload.LastExtensionAccepted | app.py:33 | "a.exe.png" is accepted |
| Upload.UpperCaseAccepted | app.py:33 | "X.JPG" is accepted |
| Upload.MixedCaseAccepted | app.py:33 | "y.Jpeg" is accepted |
| Classify.ArgMax | app.py:72 | the index is a position of a maximal score, and every earlier score is strictly smaller |
| Classify.FirstMaxUnique | app.py:72 | at most one position is the first maximum |
| Classify.ArgMaxCharacterized | app.py:72 | a position is the first maximum exactly when it is the argmax |
| Classify.DecimalString | app.py:76 | `str(n)` is a non-empty digit string starting with 0 only for n = 0 |
| Classify.DecimalRoundTrip | app.py:76 | reading `str(n)` as decimal gives n back |
| Classify.DecimalInjective | app.py:76 | distinct class indices look up distinct mapping keys |
| Server.Startup | app.py:22-30 | the model counts as loaded only when both the model and the mapping file loaded; otherwise the mapping is empty |
| Server.LetterFor | app.py:76 | `class_mapping.get(str(index), 'Unknown')`: the entry under the decimal key when present, otherwise "Unknown" |
| Server.Predict | app.py:51-88 | missing file part gives 400 "No file uploaded", then empty name 400 "No file selected", then bad extension 400 "Invalid file type", then no model or failed preprocessing 500 "Prediction failed"; success exactly when all checks pass and the model returns a non-empty score row, with status 200, a confidence no smaller than any score and the saved name under /static/uploads/; a raising `model.predict` or an empty score row escapes as an exception |
| Server.RaisingModelCrashes | app.py:68-73 | an accepted upload whose array `model.predict` rejects escapes as an exception, though preprocessing succeeded |
| Server.SuccessReportsFirstMax | app.py:72-76 | on success the confidence is the score at the first maximal position, and the letter is the mapping entry under that position in decimal, or "Unknown" when the key is missing |
| Server.RejectionIgnoresModel | app.py:53-61 | a rejected upload gets the same 400 reply whatever the server loaded and whatever the model would answer |
| Server.FailedStartupNeverSucceeds | app.py:68-86 | after a failed start-up every accepted upload gets 500 "Prediction failed" |
| Js.Truthy | script.js:222-225 | a value is falsy exactly when it is undefined, null, false, 0 or the empty string (JSON yields no NaN) |
| Js.Get | script.js:222 | property access throws exactly on null and undefined |
| Render.TableEntry | script.js:232 | `aslAlphabet[letter]?.description`: a string or convertible object finds the stored entry for its text; numbers, booleans and null find nothing |
| Render.Describe | script.js:232 | a string letter in the table shows its own stored entry, any other string shows "No description available."; numbers, booleans and null show the fallback |
| Render.LetterInfo | script.js:55 | `showLetterInfo` shows the fallback "Information not available." exactly when the letter is missing from the table, otherwise its entry |
| Render.InitializeAlphabetGrid | script.js:40-51 | the grid holds 26 cells with codes 65.. in order, i.e. exactly the letters A to Z |
| Render.GridInfo | script.js:24-31 | of the grid letters, exactly A to E have a description |
| Render.FallbacksDiffer | script.js:55 | for a letter outside the table the two lookups show different fallbacks |
| Render.LookupsAgreeOnTable | script.js:24-31 | `displayResult` and `showLetterInfo` show the same text for a letter exactly when the table has it |
| Render.LabelOf | script.js:222 | a truthy letter is shown unchanged, a falsy one as A |
| Render.DisplayResult | script.js:217-234 | the panel is revealed; the call throws on a null reply or at the first label, confidence or image whose conversion throws, and keeps what it wrote before; the label is the reply's letter when truthy and A otherwise; confidence is a percentage when truthy and N/A otherwise; the image changes only to a truthy `image`; a completed call shows the description of the label shown |
| Render.RenderReadsThreeFields | script.js:222-232 | replies that agree on letter, confidence and image render alike |
| Render.RenderEmptyReply | script.js:222-232 | a reply with no fields shows label A, A's description, N/A, and leaves the image |
| Render.ZeroConfidenceNotAvailable | script.js:223 | a confidence of exactly 0 is shown as N/A whenever the call gets past the label |
| Render.UnconvertibleLetterThrows | script.js:222 | a letter object whose conversion throws stops the call after revealing the panel, with nothing else changed |
| Client.Send | script.js:202-207 | a POST turns loading on and adds one request; camera, panel and alerts are unchanged |
| Client.SubmitForm | script.js:89-116 | with no file selected only an alert is raised; otherwise loading is set and one request is sent; a request is sent exactly when a file is selected |
| Client.StartWebcam | script.js:135-152 | a refusal changes only the alert count; a grant sets `stream` to a new stream, marks it live and sets the buttons for streaming |
| Client.StopWebcam | script.js:154-166 | never changes `stream`; without a stream it is a no-op; with one it stops that stream's tracks and resets the buttons |
| Client.CaptureImage | script.js:168-199 | one request is sent and loading set exactly when `stream` is set; camera, panel and alerts are unchanged |
| Client.Complete | script.js:106-115 | loading is cleared on both paths; a rejected chain leaves the panel and raises one alert; a parsed reply is rendered, and raises exactly one alert if rendering threw and none otherwise |
| Client.EmptySubmitSendsNothing | script.js:92-95 | submitting with no file sends nothing and leaves loading as it was |
| Client.LoadingRoundTrip | script.js:97-112 | one submission sets loading and its completion, success or failure, clears it |
| Client.LoadingIsNotACount | script.js:202-214 | with two requests in flight the first answer clears loading while one is still outstanding |
| Client.CaptureAfterStop | script.js:154-169 | after start then stop the stream is stopped yet `captureImage` still sends a request |
| Client.StopIdempotent | script.js:154-166 | stopping twice equals stopping once |
| Client.HandlersKeepValid | script.js:135-169 | every handler keeps stream numbers fresh |
| Client.GrantedStreamIsNew | script.js:137 | while stream numbers are fresh, a granted camera is neither the current stream nor a running one, so the running set grows by exactly one |
| Client.DoubleStartLeaks | script.js:137 | a second start orphans the first stream, whose tracks no later stop can reach |
| Contract.ToJs | app.py:79-88 | an error body has exactly the key `error` holding the message; a success body exactly `success` (true), `letter`, `confidence`, `image_url` holding the server's values |
| Contract.Deliver | script.js:102-106 | the status is ignored: every JSON body is parsed, only the HTML error page rejects |
| Contract.NoReplyCarriesImage | app.py:83 | no server body has an `image` property |
| Contract.ErrorReplyRendersAsA | script.js:106-109 | every error reply renders as letter A with N/A, A's description and no alert |
| Contract.SuccessReplyRendering | script.js:222-232 | a success shows the server's letter (A if empty) with its description, N/A exactly for confidence 0, and leaves the image |
| Contract.ImageNeverChanges | script.js:225-228 | no server reply changes the result image |
| Contract.CrashAlerts | script.js:111-115 | a server exception reaches the page as one alert with the panel unchanged and loading cleared |
| Contract.RejectedUploadShowsA | app.py:88 | uploading a file with a rejected name ends with the page showing A and N/A and no alert |

## Left out

- DOM work (styles, `innerHTML`, drag-over colours, `displayFileName`, the drop handler), `alert` and `console` texts: user interface plumbing; alerts are only counted.
- `fetch`, `FormData`, `getUserMedia`, canvas drawing and `toBlob`, and promise scheduling: browser I/O; each continuation is an explicit handler taking how the call ended.
- Render.DisplayResult: the percentage text `(confidence * 100).toFixed(1)` is floating-point formatting; only the choice between N/A and a percentage is modelled.
- Render.TableEntry: a number, boolean or null used as a key converts to a numeral, "true", "false" or "null"; the model uses only the fact that none of these is a table letter, not the conversion itself. An object's conversion is an input (its text, or that it throws), not computed from its properties.
- Model loading, `model.predict`, `preprocess_image` (PIL resize, division by 255): TensorFlow, PIL and numpy calls. Preprocessing is an ok/fail flag, and `model.predict` either raises or returns an abstract score row of reals, so NaN and float32 rounding are not modelled.
- Upload.Lower: lower-cases only A to Z, while Python's `str.lower` also maps other letters (such as "É" to "é") and can lengthen a string ("İ" becomes two characters). The accept/reject verdict of `allowed_file` is unaffected: no character outside A to Z lower-cases to '.' or to a letter of "png", "jpg" or "jpeg", and a character whose lower-case form is several characters long still never produces "png", "jpg" or "jpeg".
- `secure_filename`, `file.save`, `os.path.join`, `os.makedirs`, `MAX_CONTENT_LENGTH`, Flask routing and `app.run`: library and file-system behaviour; the secured name is an input, and a failing save is not modelled.
- The class mapping read from `class_mapping.json` is taken to map strings to strings; a non-string value (a number, null, an object) would reach the page as a non-string `letter`, and that is not modelled on the server side.
- Contract.ToJs: JSON encoding of non-finite floats is not modelled; the confidence is a real.
- The name of the form's file field comes from the HTML page, which is not part of this model.

=== FILE: classify.dfy ===
/**
  The two pure steps of a successful prediction in app.py: `np.argmax` over the
  model's score vector, and `str(index)` to form the key of the class mapping.
 */
module Classify {

  /** `k` is where `np.argmax` lands: a position holding a maximal score, with
      every earlier score strictly smaller (ties go to the first). */
  predicate IsFirstMax(scores: seq<real>, k: int) {
    && 0 <= k < |scores|
    && (forall j :: 0 <= j < |scores| ==> scores[j] <= scores[k])
    && (forall j :: 0 <= j < k ==> scores[j] < scores[k])
  }

  /** `np.argmax(scores)`; numpy rejects an empty vector, hence the requires. */
  function ArgMax(scores: seq<real>): (k: nat)
    requires |scores| > 0
    ensures IsFirstMax(scores, k)
  {
    if |scores| == 1 then 0
    else
      var k := ArgMax(scores[..|scores| - 1]);
      if scores[|scores| - 1] > scores[k] then |scores| - 1 else k
  }

  /** At most one position is the first maximum, so the description above
      determines the argmax completely. */
  lemma FirstMaxUnique(scores: seq<real>, i: int, j: int)
    requires IsFirstMax(scores, i) && IsFirstMax(scores, j)
    ensures i == j
  {
    assert scores[i] == scores[j];
  }

  /** Any description of the first maximum is the argmax. */
  lemma ArgMaxCharacterized(scores: seq<real>, k: int)
    requires |scores| > 0
    ensures IsFirstMax(scores, k) <==> k == ArgMax(scores)
  {
    if IsFirstMax(scores, k) {
      FirstMaxUnique(scores, k, ArgMax(scores));
    }
  }

  function DigitChar(d: nat): (c: char)
    requires d < 10
    ensures '0' <= c <= '9'
  {
    ('0' as int + d) as char
  }

  function DigitValue(c: char): nat {
    if '0' <= c <= '9' then c as int - '0' as int else 0
  }

  /** `str(n)` for a non-negative integer: its decimal digits. */
  function DecimalString(n: nat): (s: string)
    ensures |s| >= 1
    ensures forall i :: 0 <= i < |s| ==> '0' <= s[i] <= '9'
    ensures s[0] == '0' <==> n == 0
  {
    if n < 10 then [DigitChar(n)] else DecimalString(n / 10) + [DigitChar(n % 10)]
  }

  /** Reads a string of decimal digits back as a number, most significant first. */
  function ParseDecimal(s: string): nat {
    if s == [] then 0 else ParseDecimal(s[..|s| - 1]) * 10 + DigitValue(s[|s| - 1])
  }

  /** Reading the decimal form gives the number back. */
  lemma {:induction false} DecimalRoundTrip(n: nat)
    ensures ParseDecimal(DecimalString(n)) == n
  {
    if n >= 10 {
      var s := DecimalString(n);
      assert s[..|s| - 1] == DecimalString(n / 10);
      DecimalRoundTrip(n / 10);
    }
  }

  /** Distinct class indices give distinct mapping keys. */
  lemma DecimalInjective(m: nat, n: nat)
    requires DecimalString(m) == DecimalString(n)
    ensures m == n
  {
    DecimalRoundTrip(m);
    DecimalRoundTrip(n);
  }
}

=== FILE: client.dfy ===
/**
  The control state of script.js: the camera `stream` global and the tracks it
  leaves running, the webcam buttons, the loading indicator, the requests in
  flight, the result panel and the alerts raised. Each event handler is a
  function from one state to the next; the browser's answers (camera
  permission, the reply to a POST) are parameters.
 */
module Client {
  import opened Wrappers
  import opened Js
  import opened Render

  /** The `disabled` flags and `hidden` classes of the three webcam buttons. */
  datatype Buttons = Buttons(
    startDisabled: bool,
    stopDisabled: bool,
    captureDisabled: bool,
    startHidden: bool,
    stopHidden: bool)

  /** Buttons as `startWebcam` leaves them after a granted camera. */
  const StreamingButtons: Buttons := Buttons(true, false, false, true, false)
  /** Buttons as `stopWebcam` leaves them. */
  const IdleButtons: Buttons := Buttons(false, true, true, false, true)

  /** `stream` is the global (None while it is `null`); camera streams are
      numbered in the order they are granted, and `live` holds those whose
      tracks have not been stopped. `loading` stands for the spinner, the dimmed
      result area and the disabled detect button, which always change together.
      `sent` counts POSTs to `/predict`, `inFlight` those not yet answered. */
  datatype Client = Client(
    stream: Option<nat>,
    live: set<nat>,
    nextStream: nat,
    buttons: Buttons,
    loading: bool,
    inFlight: nat,
    sent: nat,
    panel: Panel,
    alerts: nat)

  /** The camera part of the state, which the request handlers leave alone. */
  function Camera(c: Client): (Option<nat>, set<nat>, nat, Buttons) {
    (c.stream, c.live, c.nextStream, c.buttons)
  }

  /** The page as loaded: `stream` is null and no camera is held. */
  predicate Initial(c: Client) {
    c.stream.None? && c.live == {} && c.inFlight == 0
  }

  /** Stream numbers are handed out fresh: every stream the page holds or left
      running was granted before the next one to be granted. */
  predicate Valid(c: Client) {
    && (forall s :: s in c.live ==> s < c.nextStream)
    && (c.stream.Some? ==> c.stream.value < c.nextStream)
  }

  /** How a POST ends for the page: `response.json()` yields a value, or the
      promise chain rejects (network failure, or a body that is not JSON). */
  datatype Reply = Parsed(data: JsValue) | Rejected

  /** `showLoading` followed by the POST. */
  function Send(c: Client): (c': Client)
    ensures c'.loading
    ensures c'.sent == c.sent + 1 && c'.inFlight == c.inFlight + 1
    ensures Camera(c') == Camera(c) && c'.panel == c.panel && c'.alerts == c.alerts
  {
    c.(loading := true, sent := c.sent + 1, inFlight := c.inFlight + 1)
  }

  /** The submit handler of the upload form, with the number of selected files. */
  function SubmitForm(c: Client, selected: nat): (c': Client)
    ensures selected == 0 ==> c' == c.(alerts := c.alerts + 1)
    ensures selected > 0 ==> c' == Send(c)
    ensures c'.sent > c.sent <==> selected > 0
  {
    if selected == 0 then c.(alerts := c.alerts + 1) else Send(c)
  }

  /** `startWebcam`, with whether `getUserMedia` granted a camera. A refusal
      leaves everything but the alert count alone. Nothing stops the tracks
      of a stream that was already running. */
  function StartWebcam(c: Client, granted: bool): (c': Client)
    ensures !granted ==> c' == c.(alerts := c.alerts + 1)
    ensures granted ==>
      && c'.stream == Some(c.nextStream)
      && c'.live == c.live + {c.nextStream}
      && c'.buttons == StreamingButtons
      && c'.nextStream > c.nextStream
      && c' == c.(stream := c'.stream, live := c'.live, nextStream := c'.nextStream,
                  buttons := StreamingButtons)
  {
    if granted then
      c.(stream := Some(c.nextStream), live := c.live + {c.nextStream},
         nextStream := c.nextStream + 1, buttons := StreamingButtons)
    else c.(alerts := c.alerts + 1)
  }

  /** `stopWebcam`: acts only when `stream` is set, stops that stream's tracks
      and resets the buttons, but never sets `stream` back to null. */
  function StopWebcam(c: Client): (c': Client)
    ensures c'.stream == c.stream
    ensures c.stream.None? ==> c' == c
    ensures c.stream.Some? ==>
      c' == c.(live := c.live - {c.stream.value}, buttons := IdleButtons)
  {
    match c.stream
    case None => c
    case Some(s) => c.(live := c.live - {s}, buttons := IdleButtons)
  }

  /** `captureImage`: without a stream it returns at once; otherwise it
      grabs a frame and POSTs it. */
  function CaptureImage(c: Client): (c': Client)
    ensures c'.sent == c.sent + (if c.stream.Some? then 1 else 0)
    ensures c'.inFlight == c.inFlight + (if c.stream.Some? then 1 else 0)
    ensures c'.loading == (c.loading || c.stream.Some?)
    ensures Camera(c') == Camera(c) && c'.panel == c.panel && c'.alerts == c.alerts
  {
    if c.stream.None? then c else Send(c)
  }

  /** The continuations of a POST: `hideLoading` and `displayResult` on a
      parsed reply, `hideLoading` and an alert when the chain rejects. The
      status code is never looked at. A `displayResult` that throws half-way
      lands in the same catch. */
  function Complete(c: Client, reply: Reply): (c': Client)
    requires c.inFlight > 0
    ensures !c'.loading
    ensures c'.inFlight == c.inFlight - 1
    ensures reply.Rejected? ==> c'.panel == c.panel && c'.alerts == c.alerts + 1
    ensures reply.Parsed? ==> c'.panel == DisplayResult(c.panel, reply.data).panel
    ensures reply.Parsed? ==>
      (c'.alerts == c.alerts + 1 <==> DisplayResult(c.panel, reply.data).Threw?)
    ensures reply.Parsed? ==>
      c'.alerts == c.alerts + (if DisplayResult(c.panel, reply.data).Threw? then 1 else 0)
    ensures Camera(c') == Camera(c)
    ensures c'.sent == c.sent
  {
    var c := c.(loading := false, inFlight := c.inFlight - 1);
    match reply
    case Rejected => c.(alerts := c.alerts + 1)
    case Parsed(data) =>
      match DisplayResult(c.panel, data)
      case Rendered(p) => c.(panel := p)
      case Threw(p) => c.(panel := p, alerts := c.alerts + 1)
  }

  /** With no file chosen, submitting neither shows the spinner nor sends anything. */
  lemma EmptySubmitSendsNothing(c: Client)
    ensures SubmitForm(c, 0).sent == c.sent
    ensures SubmitForm(c, 0).loading == c.loading
    ensures SubmitForm(c, 0).inFlight == c.inFlight
  {
  }

  /** Loading is cleared on every continuation: whatever the reply, a single
      request from a page that was not loading leaves it not loading. */
  lemma LoadingRoundTrip(c: Client, selected: nat, reply: Reply)
    requires !c.loading && c.inFlight == 0 && selected > 0
    ensures SubmitForm(c, selected).loading
    ensures Complete(SubmitForm(c, selected), reply).loading == c.loading
    ensures Complete(SubmitForm(c, selected), reply).inFlight == 0
  {
  }

  /** The indicator is one flag, not a count: with a form submission and a
      capture in flight, the first answer hides it while a request is still
      outstanding. */
  lemma LoadingIsNotACount(c: Client, reply: Reply)
    requires Initial(c)
    ensures
      var streaming := StartWebcam(c, true);
      var both := CaptureImage(SubmitForm(streaming, 1));
      both.inFlight == 2 && !Complete(both, reply).loading && Complete(both, reply).inFlight == 1
  {
  }

  /** Once a camera has been started and stopped, `captureImage`'s guard no longer
      blocks: the stream is stopped, yet a capture still sends a request (from the
      page only through a direct call, as the capture button is then disabled). */
  lemma CaptureAfterStop(c: Client)
    ensures
      var stopped := StopWebcam(StartWebcam(c, true));
      && stopped.stream.Some?
      && stopped.stream.value !in stopped.live
      && stopped.buttons.captureDisabled
      && CaptureImage(stopped).sent == c.sent + 1
  {
  }

  /** Stopping twice is stopping once. */
  lemma StopIdempotent(c: Client)
    ensures StopWebcam(StopWebcam(c)) == StopWebcam(c)
  {
  }

  /** Every handler keeps stream numbers fresh. */
  lemma HandlersKeepValid(c: Client, selected: nat, granted: bool, reply: Reply)
    requires Valid(c)
    ensures Valid(SubmitForm(c, selected))
    ensures Valid(StartWebcam(c, granted))
    ensures Valid(StopWebcam(c))
    ensures Valid(CaptureImage(c))
    ensures c.inFlight > 0 ==> Valid(Complete(c, reply))
  {
  }

  /** On a page whose stream numbers are fresh, a granted camera is a new stream:
      neither the current one nor one still running, so the running set grows by one. */
  lemma GrantedStreamIsNew(c: Client)
    requires Valid(c)
    ensures c.nextStream !in c.live && c.stream != Some(c.nextStream)
    ensures |StartWebcam(c, true).live| == |c.live| + 1
  {
  }

  /** Starting a second camera while one runs orphans the first: its tracks stay
      live, and no later stop can reach it, since stop only acts on `stream`. */
  lemma DoubleStartLeaks(c: Client)
    ensures
      var first := c.nextStream;
      var twice := StartWebcam(StartWebcam(c, true), true);
      && first in twice.live
      && twice.stream != Some(first)
      && first in StopWebcam(twice).live
      && first in StopWebcam(StopWebcam(twice)).live
  {
  }
}

=== FILE: contract.dfy ===
/**
  Where the two halves meet: the server's reply as the page receives it. The
  page parses any JSON body, whatever the status, and reads `image` where the
  server writes `image_url`.
 */
module Contract {
  import opened Wrappers
  import opened Js
  import Server
  import Upload
  import opened Render
  import opened Client

  /** What a JavaScript object literal converts to as a string. */
  const ObjectText: Option<string> := Some("[object Object]")

  /** The JSON object `jsonify` writes for a body, as `response.json()` reads it. */
  function ToJs(body: Server.Body): (v: JsValue)
    ensures v.Obj?
    ensures !ConversionThrows(v)
    ensures body.ErrorBody? ==> v.props.Keys == {"error"} && v.props["error"] == Str(body.error)
    ensures body.SuccessBody? ==>
      && v.props.Keys == {"success", "letter", "confidence", "image_url"}
      && v.props["success"] == Bool(true)
      && v.props["letter"] == Str(body.letter)
      && v.props["confidence"] == Num(body.confidence)
      && v.props["image_url"] == Str(body.imageUrl)
  {
    match body
    case ErrorBody(e) => Obj(map["error" := Str(e)], ObjectText)
    case SuccessBody(letter, confidence, url) =>
      Obj(map["success" := Bool(true), "letter" := Str(letter),
              "confidence" := Num(confidence), "image_url" := Str(url)], ObjectText)
  }

  /** `fetch(...).then(response => response.json())`: the status is ignored; a
      JSON body of any status is parsed, and Flask's HTML error page is not JSON,
      so the chain rejects. */
  function Deliver(resp: Server.Response): (reply: Reply)
    ensures reply.Rejected? <==> resp.Crash?
    ensures resp.Json? ==> reply == Parsed(ToJs(resp.body))
  {
    match resp
    case Json(_, body) => Parsed(ToJs(body))
    case Crash => Rejected
  }

  /** No server reply carries the `image` property the page looks for. */
  lemma NoReplyCarriesImage(body: Server.Body)
    ensures Get(ToJs(body), "image") == Some(Undefined)
    ensures Get(ToJs(body), "letter").Some?
  {
  }

  /** Every 400 or 500 error reply is rendered as a prediction of letter A: no
      alert, confidence N/A, A's description, image untouched. */
  lemma ErrorReplyRendersAsA(c: Client, status: nat, message: string)
    requires c.inFlight > 0
    ensures
      var c' := Complete(c, Deliver(Server.Json(status, Server.ErrorBody(message))));
      && c'.panel == c.panel.(shown := true, letter := DefaultLetter, confidence := NotAvailable,
                              description := AslAlphabet["A"])
      && c'.alerts == c.alerts
      && !c'.loading
  {
    var data := ToJs(Server.ErrorBody(message));
    assert Get(data, "letter") == Some(Undefined);
    assert Get(data, "confidence") == Some(Undefined);
  }

  /** A successful reply shows the server's letter (A when it is empty) with the
      description of the letter shown, shows N/A exactly when the confidence is
      zero, and never changes the image. */
  lemma SuccessReplyRendering(c: Client, letter: string, confidence: real, url: string)
    requires c.inFlight > 0
    ensures
      var c' := Complete(c, Deliver(Server.Json(200, Server.SuccessBody(letter, confidence, url))));
      && c'.panel.shown
      && c'.panel.letter == (if letter == "" then DefaultLetter else Str(letter))
      && c'.panel.description == Describe(c'.panel.letter)
      && (c'.panel.confidence == NotAvailable <==> confidence == 0.0)
      && c'.panel.image == c.panel.image
      && c'.alerts == c.alerts
  {
    var data := ToJs(Server.SuccessBody(letter, confidence, url));
    assert Get(data, "letter") == Some(Str(letter));
    assert Get(data, "confidence") == Some(Num(confidence));
    assert Get(data, "image") == Some(Undefined);
  }

  /** Whatever the server answers, the result image stays as it was. */
  lemma ImageNeverChanges(c: Client, resp: Server.Response)
    requires c.inFlight > 0
    ensures Complete(c, Deliver(resp)).panel.image == c.panel.image
  {
    match resp
    case Crash =>
    case Json(_, body) =>
      NoReplyCarriesImage(body);
  }

  /** An exception on the server reaches the page as a rejected chain: one alert,
      the panel as it was, loading cleared. */
  lemma CrashAlerts(c: Client)
    requires c.inFlight > 0
    ensures Complete(c, Deliver(Server.Crash)).panel == c.panel
    ensures Complete(c, Deliver(Server.Crash)).alerts == c.alerts + 1
    ensures !Complete(c, Deliver(Server.Crash)).loading
  {
  }

  /** End to end: uploading a file whose name the server rejects leaves the page
      showing letter A with confidence N/A and no alert, as if A had been predicted. */
  lemma RejectedUploadShowsA(c: Client, part: Server.FilePart, st: Server.ServerState,
                             inf: Server.Inference)
    requires !Upload.AllowedFile(part.filename)
    ensures
      var resp := Server.Predict(Server.Request(Some(part)), st, inf);
      var c' := Complete(SubmitForm(c, 1), Deliver(resp));
      && resp.Json? && resp.status == 400
      && c'.panel.letter == DefaultLetter
      && c'.panel.confidence == NotAvailable
      && c'.alerts == c.alerts
  {
    var resp := Server.Predict(Server.Request(Some(part)), st, inf);
    ErrorReplyRendersAsA(SubmitForm(c, 1), resp.status, resp.body.error);
  }
}

=== FILE: js.dfy ===
/**
  The JavaScript values a parsed JSON reply can hold, with the two operations
  script.js applies to them: truthiness (`x || d`, `x ? a : b`, `if (x)`) and
  property access (`data.letter`).
 */
module Js {
  import opened Wrappers

  /** `Obj` stands for any object or array: the properties it carries and the
      string its conversion to a primitive gives (for `textContent`, `* 100`,
      `src` or a property key), or None when that conversion throws. A parsed
      object whose own `toString` property shadows the inherited method throws,
      because JSON holds no functions; so does an array holding such an object.
      No JSON text yields `undefined`; it appears as the value of a missing property. */
  datatype JsValue =
    | Undefined
    | Null
    | Bool(b: bool)
    | Num(x: real)
    | Str(s: string)
    | Obj(props: map<string, JsValue>, text: Option<string>)

  /** JavaScript truthiness. JSON cannot produce NaN, so a number is falsy
      exactly when it is zero. */
  function Truthy(v: JsValue): (t: bool)
    ensures !t <==> v in {Undefined, Null, Bool(false), Num(0.0), Str("")}
  {
    match v
    case Undefined => false
    case Null => false
    case Bool(b) => b
    case Num(x) => x != 0.0
    case Str(s) => s != ""
    case Obj(_, _) => true
  }

  /** Converting `v` to a primitive throws a TypeError. */
  predicate ConversionThrows(v: JsValue) {
    v.Obj? && v.text.None?
  }

  /** `v.key`: None when it throws (a TypeError on `null` and `undefined`).
      Primitives carry none of the properties looked up here, and no such
      property is inherited from the object prototype. */
  function Get(v: JsValue, key: string): (r: Option<JsValue>)
    ensures r.None? <==> v.Null? || v.Undefined?
  {
    match v
    case Undefined => None
    case Null => None
    case Obj(props, _) => Some(if key in props then props[key] else Undefined)
    case _ => Some(Undefined)
  }

  /** The value of `v.key`, `undefined` where the access itself would throw. */
  function Field(v: JsValue, key: string): JsValue {
    Get(v, key).GetOr(Undefined)
  }
}

=== FILE: render.dfy ===
/**
  The result rendering of script.js: the `aslAlphabet` reference table, the
  alphabet grid, `showLetterInfo` and `displayResult`. Only the decisions are
  modelled; the DOM elements are the fields of a `Panel`.
 */
module Render {
  import opened Wrappers
  import opened Js

  /** `aslAlphabet`: letter to description, only A to E are filled in. */
  const AslAlphabet: map<string, string> := map[
    "A" := "Closed fist with thumb alongside.",
    "B" := "Flat hand, fingers together, thumb across palm.",
    "C" := "Curved hand in a C shape.",
    "D" := "Pointing up with index finger, others in fist.",
    "E" := "Fingers curled in, thumb across fingers."
  ]

  /** The fallback `displayResult` shows for a letter the table lacks. */
  const NoDescription: string := "No description available."
  /** The different fallback `showLetterInfo` shows. */
  const NoInformation: string := "Information not available."
  /** The label shown when the reply has no usable letter. */
  const DefaultLetter: JsValue := Str("A")

  /** Grid letters run from character code 65 to 90. */
  const FirstGridCode: int := 65
  const LastGridCode: int := 90

  /** `aslAlphabet[letter]?.description`. A value used as a key is converted to
      a string: a string is itself, an object or array gives its text, and a
      number, boolean or null converts to a numeral, "true", "false" or "null",
      none of which is a table key. The table's inherited members carry no
      `description`. An object whose conversion throws never gets here:
      `displayResult` has already thrown on it. */
  function TableEntry(letter: JsValue): (e: Option<string>)
    ensures letter.Str? ==>
      e == (if letter.s in AslAlphabet then Some(AslAlphabet[letter.s]) else None)
    ensures letter.Obj? && letter.text.Some? ==>
      e == (if letter.text.value in AslAlphabet then Some(AslAlphabet[letter.text.value]) else None)
    ensures letter.Num? || letter.Bool? || letter.Null? || letter.Undefined? ==> e.None?
    ensures e.Some? ==> e.value in AslAlphabet.Values
  {
    match letter
    case Str(s) => if s in AslAlphabet then Some(AslAlphabet[s]) else None
    case Obj(_, Some(text)) => if text in AslAlphabet then Some(AslAlphabet[text]) else None
    case _ => None
  }

  /** The description `displayResult` shows for a letter: the stored entry, or
      the fallback when the table has none. */
  function Describe(letter: JsValue): (d: string)
    ensures letter.Str? ==>
      d == (if letter.s in AslAlphabet then AslAlphabet[letter.s] else NoDescription)
    ensures letter.Obj? && letter.text.Some? ==>
      d == (if letter.text.value in AslAlphabet then AslAlphabet[letter.text.value] else NoDescription)
    ensures letter.Num? || letter.Bool? || letter.Null? || letter.Undefined? ==> d == NoDescription
    ensures d != NoDescription ==> d in AslAlphabet.Values
  {
    match TableEntry(letter)
    case Some(desc) => desc
    case None => NoDescription
  }

  /** The description `showLetterInfo` shows for a grid letter. */
  function LetterInfo(letter: char): (d: string)
    ensures d == NoInformation <==> [letter] !in AslAlphabet
    ensures [letter] in AslAlphabet ==> d == AslAlphabet[[letter]]
  {
    if [letter] in AslAlphabet then AslAlphabet[[letter]] else NoInformation
  }

  /** `initializeAlphabetGrid`: one cell per letter code 65..90, in order. */
  method InitializeAlphabetGrid() returns (grid: seq<char>)
    ensures |grid| == 26
    ensures forall i :: 0 <= i < |grid| ==> grid[i] as int == FirstGridCode + i
    ensures forall c: char :: c in grid <==> 'A' <= c <= 'Z'
  {
    grid := [];
    var code := FirstGridCode;
    while code <= LastGridCode
      invariant FirstGridCode <= code <= LastGridCode + 1
      invariant |grid| == code - FirstGridCode
      invariant forall i :: 0 <= i < |grid| ==> grid[i] as int == FirstGridCode + i
    {
      grid := grid + [code as char];
      code := code + 1;
    }
    forall c: char | 'A' <= c <= 'Z'
      ensures c in grid
    {
      assert grid[c as int - FirstGridCode] == c;
    }
  }

  /** Of the 26 grid letters, exactly A to E have a description. */
  lemma GridInfo(c: char)
    requires 'A' <= c <= 'Z'
    ensures LetterInfo(c) != NoInformation <==> c <= 'E'
  {
    if c > 'E' {
      assert [c] != "A" && [c] != "B" && [c] != "C" && [c] != "D" && [c] != "E";
    }
  }

  /** The two lookups of the same table disagree on what they show for a
      missing letter. */
  lemma FallbacksDiffer(c: char)
    requires [c] !in AslAlphabet
    ensures LetterInfo(c) != Describe(Str([c]))
  {
  }

  /** `displayResult` and `showLetterInfo` show the same text for a letter
      exactly when the table has that letter. */
  lemma LookupsAgreeOnTable(c: char)
    ensures Describe(Str([c])) == LetterInfo(c) <==> [c] in AslAlphabet
  {
  }

  /** How confidence is shown: `N/A`, or the value as a percentage (the
      number formatting itself is not modelled). */
  datatype Confidence = NotAvailable | Percent(value: JsValue)

  /** The result panel: whether it is shown, the label, the confidence text,
      the result image (None until an image was ever set) and the description. */
  datatype Panel = Panel(
    shown: bool,
    letter: JsValue,
    confidence: Confidence,
    image: Option<JsValue>,
    description: string)

  /** A call of `displayResult` either runs to the end or throws half-way;
      in both cases the panel has changed as far as the call got. */
  datatype Rendering = Rendered(panel: Panel) | Threw(panel: Panel)

  /** `data.letter || 'A'`, used for both the label and the description. */
  function LabelOf(letter: JsValue): (l: JsValue)
    ensures Truthy(letter) ==> l == letter
    ensures !Truthy(letter) ==> l == DefaultLetter
    ensures Truthy(l)
  {
    if Truthy(letter) then letter else DefaultLetter
  }

  /** `displayResult` reaches the confidence line: reading `data.letter` did not
      throw, nor did converting the label for `textContent`. */
  predicate ReachesConfidence(data: JsValue) {
    Get(data, "letter").Some? && !ConversionThrows(LabelOf(Field(data, "letter")))
  }

  /** `displayResult` reaches the image line: the confidence, if truthy, converted
      to a number. */
  predicate ReachesImage(data: JsValue) {
    ReachesConfidence(data) && !ConversionThrows(Field(data, "confidence"))
  }

  /** `displayResult(data)`, one statement at a time. The panel is revealed first;
      reading `data.letter` throws when `data` is null, and writing a label,
      confidence or image whose conversion throws stops the call there. */
  function DisplayResult(p: Panel, data: JsValue): (r: Rendering)
    ensures r.panel.shown
    ensures r.Rendered? <==> ReachesImage(data) && !ConversionThrows(Field(data, "image"))
    ensures ReachesConfidence(data) ==>
      var letter := Field(data, "letter");
      && (Truthy(letter) ==> r.panel.letter == letter)
      && (!Truthy(letter) ==> r.panel.letter == DefaultLetter)
    ensures !ReachesConfidence(data) ==> r.panel.letter == p.letter
    ensures ReachesImage(data) ==>
      var confidence := Field(data, "confidence");
      && (Truthy(confidence) ==> r.panel.confidence == Percent(confidence))
      && (!Truthy(confidence) ==> r.panel.confidence == NotAvailable)
    ensures !ReachesImage(data) ==> r.panel.confidence == p.confidence
    ensures
      var image := Field(data, "image");
      r.panel.image == (if r.Rendered? && Truthy(image) then Some(image) else p.image)
    ensures r.Rendered? ==> Truthy(r.panel.letter) && r.panel.description == Describe(r.panel.letter)
    ensures r.Threw? ==> r.panel.description == p.description
  {
    var p := p.(shown := true);
    match Get(data, "letter")
    case None => Threw(p)
    case Some(letter) =>
      var shownLetter := LabelOf(letter);
      if ConversionThrows(shownLetter) then Threw(p)
      else
        var p := p.(letter := shownLetter);
        var confidence := Field(data, "confidence");
        if ConversionThrows(confidence) then Threw(p)
        else
          var p := p.(confidence := if Truthy(confidence) then Percent(confidence) else NotAvailable);
          var image := Field(data, "image");
          if ConversionThrows(image) then Threw(p)
          else
            var p := p.(image := if Truthy(image) then Some(image) else p.image);
            Rendered(p.(description := Describe(shownLetter)))
  }

  /** Only the `letter`, `confidence` and `image` properties matter: replies that
      agree on them render alike, whatever else they carry. */
  lemma RenderReadsThreeFields(p: Panel, a: JsValue, b: JsValue)
    requires a.Obj? && b.Obj?
    requires forall key :: key in {"letter", "confidence", "image"} ==> Get(a, key) == Get(b, key)
    ensures DisplayResult(p, a) == DisplayResult(p, b)
  {
    assert Get(a, "letter") == Get(b, "letter");
    assert Get(a, "confidence") == Get(b, "confidence");
    assert Get(a, "image") == Get(b, "image");
    assert Field(a, "letter") == Field(b, "letter");
  }

  /** A reply with none of the fields shows the defaults: label A with A's
      description, confidence N/A, and the image left as it was. */
  lemma RenderEmptyReply(p: Panel, text: Option<string>)
    ensures DisplayResult(p, Obj(map[], text)) ==
      Rendered(p.(shown := true, letter := DefaultLetter, confidence := NotAvailable,
                  description := AslAlphabet["A"]))
  {
  }

  /** A confidence of exactly 0 is falsy and is shown as N/A, once the call
      gets past the label. */
  lemma ZeroConfidenceNotAvailable(p: Panel, data: JsValue)
    requires Get(data, "confidence") == Some(Num(0.0))
    requires ReachesConfidence(data)
    ensures DisplayResult(p, data).panel.confidence == NotAvailable
  {
  }

  /** A letter object that cannot be converted, as in `{"letter": {"toString": 1}}`,
      stops the call at the label: the panel is revealed and nothing else changes. */
  lemma UnconvertibleLetterThrows(p: Panel, props: map<string, JsValue>, text: Option<string>)
    ensures
      var data := Obj(map["letter" := Obj(props, None)], text);
      DisplayResult(p, data) == Threw(p.(shown := true))
  {
  }
}

=== FILE: server.dfy ===
/**
  The Flask server of app.py: what start-up leaves loaded, and the decision tree
  of the `/predict` route. The model itself, the image preprocessing and the
  file system are outside the model: start-up sees only whether each load
  succeeded, and one request sees only whether preprocessing produced an array
  and which score vector the model returned for it.
 */
module Server {
  import opened Wrappers
  import Upload
  import Classify

  /** The `'file'` part of a multipart request. `savedName` is what werkzeug's
      `secure_filename` makes of `filename`; the file is saved under it. */
  datatype FilePart = FilePart(filename: string, savedName: string)

  /** The facts about one POST that the route looks at. */
  datatype Request = Request(file: Option<FilePart>)

  /** The module-level globals `model` and `class_mapping`. */
  datatype ServerState = ServerState(modelLoaded: bool, classMapping: map<string, string>)

  /** What the foreign calls produce for one accepted upload: whether
      `preprocess_image` returned an array (rather than None), and the first row
      of `model.predict` on it, or None when `model.predict` raises (an array
      whose shape the network does not accept, such as one from a grayscale or
      RGBA image). */
  datatype Inference = Inference(preprocessOk: bool, prediction: Option<seq<real>>)

  /** The model produced a score row with at least one class in it. */
  predicate HasScores(inf: Inference) {
    inf.prediction.Some? && |inf.prediction.value| > 0
  }

  /** The two JSON bodies the route builds with `jsonify`. */
  datatype Body =
    | ErrorBody(error: string)
    | SuccessBody(letter: string, confidence: real, imageUrl: string)

  /** An HTTP reply: a JSON body with its status, or an exception escaping the
      route, which Flask turns into its own HTML "500 Internal Server Error" page. */
  datatype Response = Json(status: nat, body: Body) | Crash

  const UploadUrlPrefix: string := "/static/uploads/"
  const UnknownLetter: string := "Unknown"

  /** Start-up (the module-level try block): the model is loaded first and the
      mapping file read second; if either fails, BOTH globals fall back. */
  function Startup(modelOk: bool, mappingFile: Option<map<string, string>>): (st: ServerState)
    ensures st.modelLoaded <==> modelOk && mappingFile.Some?
    ensures st.modelLoaded ==> st.classMapping == mappingFile.value
    ensures !st.modelLoaded ==> st.classMapping == map[]
  {
    if modelOk && mappingFile.Some? then ServerState(true, mappingFile.value)
    else ServerState(false, map[])
  }

  /** The upload passes both validation checks: it is present and its name is allowed
      (an allowed name is never empty). */
  predicate Accepted(req: Request) {
    req.file.Some? && Upload.AllowedFile(req.file.value.filename)
  }

  /** `class_mapping.get(str(index), 'Unknown')`. */
  function LetterFor(mapping: map<string, string>, index: nat): (letter: string)
    ensures Classify.DecimalString(index) in mapping ==>
      letter == mapping[Classify.DecimalString(index)]
    ensures Classify.DecimalString(index) !in mapping ==> letter == UnknownLetter
    ensures letter != UnknownLetter ==> letter in mapping.Values
  {
    var key := Classify.DecimalString(index);
    if key in mapping then mapping[key] else UnknownLetter
  }

  /** The `/predict` route. The checks run in a fixed order and the first that
      fails decides the reply; only an accepted upload reaches the model. */
  function Predict(req: Request, st: ServerState, inf: Inference): (r: Response)
    ensures req.file.None? ==> r == Json(400, ErrorBody("No file uploaded"))
    ensures req.file.Some? && req.file.value.filename == "" ==>
      r == Json(400, ErrorBody("No file selected"))
    ensures req.file.Some? && req.file.value.filename != "" && !Accepted(req) ==>
      r == Json(400, ErrorBody("Invalid file type"))
    ensures Accepted(req) && !(st.modelLoaded && inf.preprocessOk) ==>
      r == Json(500, ErrorBody("Prediction failed"))
    ensures r.Crash? <==> Accepted(req) && st.modelLoaded && inf.preprocessOk && !HasScores(inf)
    ensures r.Json? ==> (r.status == 200 <==> r.body.SuccessBody?)
    ensures r.Json? && r.body.ErrorBody? ==> r.status in {400, 500}
    ensures r.Json? && r.body.SuccessBody? <==>
      Accepted(req) && st.modelLoaded && inf.preprocessOk && HasScores(inf)
    ensures r.Json? && r.body.SuccessBody? ==>
      && (forall j :: 0 <= j < |inf.prediction.value| ==> inf.prediction.value[j] <= r.body.confidence)
      && r.body.imageUrl == UploadUrlPrefix + req.file.value.savedName
  {
    if req.file.None? then Json(400, ErrorBody("No file uploaded"))
    else if req.file.value.filename == "" then Json(400, ErrorBody("No file selected"))
    else if Upload.AllowedFile(req.file.value.filename) then
      if st.modelLoaded && inf.preprocessOk then
        // model.predict raises, or np.argmax does on an empty row
        if !HasScores(inf) then Crash
        else
          var scores := inf.prediction.value;
          var k := Classify.ArgMax(scores);
          Json(200, SuccessBody(LetterFor(st.classMapping, k), scores[k],
                                UploadUrlPrefix + req.file.value.savedName))
      else Json(500, ErrorBody("Prediction failed"))
    else Json(400, ErrorBody("Invalid file type"))
  }

  /** A successful reply reports the first position of a maximal score: its
      confidence is that score, and its letter is the mapping's entry under that
      position written in decimal, or "Unknown" when the mapping has no such key. */
  lemma SuccessReportsFirstMax(req: Request, st: ServerState, inf: Inference, k: int)
    requires Predict(req, st, inf).Json? && Predict(req, st, inf).body.SuccessBody?
    requires Classify.IsFirstMax(inf.prediction.value, k)
    ensures Predict(req, st, inf).body.confidence == inf.prediction.value[k]
    ensures Classify.DecimalString(k) in st.classMapping ==>
      Predict(req, st, inf).body.letter == st.classMapping[Classify.DecimalString(k)]
    ensures Classify.DecimalString(k) !in st.classMapping ==>
      Predict(req, st, inf).body.letter == UnknownLetter
  {
    Classify.ArgMaxCharacterized(inf.prediction.value, k);
  }

  /** Validation is decided before the model is consulted: a rejected upload gets
      the same reply whatever the server has loaded and whatever the model would say. */
  lemma RejectionIgnoresModel(req: Request, st1: ServerState, inf1: Inference,
                              st2: ServerState, inf2: Inference)
    requires !Accepted(req)
    ensures Predict(req, st1, inf1) == Predict(req, st2, inf2)
    ensures Predict(req, st1, inf1).Json? && Predict(req, st1, inf1).status == 400
  {
  }

  /** A server whose start-up failed answers every accepted upload with 500 and
      never succeeds. */
  lemma FailedStartupNeverSucceeds(modelOk: bool, mappingFile: Option<map<string, string>>,
                                   req: Request, inf: Inference)
    requires !modelOk || mappingFile.None?
    requires Accepted(req)
    ensures Predict(req, Startup(modelOk, mappingFile), inf) == Json(500, ErrorBody("Prediction failed"))
  {
  }

  /** An accepted upload whose array the network rejects escapes the route as
      an exception, even though preprocessing succeeded. */
  lemma RaisingModelCrashes(req: Request, st: ServerState, preprocessOk: bool)
    requires Accepted(req) && st.modelLoaded && preprocessOk
    ensures Predict(req, st, Inference(preprocessOk, None)) == Crash
  {
  }
}

=== FILE: upload.dfy ===
/**
  The server's upload filter, `allowed_file` in app.py: a filename is accepted
  when the text after its LAST '.' is, once lower-cased, one of the allowed
  extensions.
 */
module Upload {
  import opened Wrappers

  /** ALLOWED_EXTENSIONS, all lower case. */
  const AllowedExtensions: set<string> := {"png", "jpg", "jpeg"}

  /** Lower-cases one character. Only 'A'..'Z' change: no other character
      lower-cases to a letter of "png", "jpg" or "jpeg", so for the membership
      test below this agrees with Python's full Unicode `str.lower`. */
  function LowerChar(c: char): char {
    if 'A' <= c <= 'Z' then (c as int + 32) as char else c
  }

  /** `s.lower()`, character by character. */
  function Lower(s: string): (r: string)
    ensures |r| == |s|
    ensures forall i :: 0 <= i < |s| ==> r[i] == LowerChar(s[i])
  {
    if s == [] then [] else Lower(s[..|s| - 1]) + [LowerChar(s[|s| - 1])]
  }

  /** The position of the last occurrence of `c` in `s`, if any. */
  function LastIndexOf(s: string, c: char): (r: Option<nat>)
    ensures r.None? <==> c !in s
    ensures r.Some? ==> r.value < |s| && s[r.value] == c && c !in s[r.value + 1..]
  {
    if s == [] then None
    else if s[|s| - 1] == c then Some(|s| - 1)
    else
      var r := LastIndexOf(s[..|s| - 1], c);
      assert r.Some? ==> s[r.value + 1..] == s[..|s| - 1][r.value + 1..] + [s[|s| - 1]];
      r
  }

  /** `filename.rsplit('.', 1)[1]` behind the guard `'.' in filename`: the text
      after the last '.', or None when the name holds no '.' at all. */
  function Extension(filename: string): (r: Option<string>)
    ensures r.None? <==> '.' !in filename
    ensures r.Some? ==>
      && '.' !in r.value
      && |r.value| < |filename|
      && filename == filename[..|filename| - |r.value| - 1] + "." + r.value
  {
    match LastIndexOf(filename, '.')
    case None => None
    case Some(k) =>
      assert filename == filename[..k] + "." + filename[k + 1..];
      Some(filename[k + 1..])
  }

  /** `allowed_file(filename)`. */
  function AllowedFile(filename: string): (ok: bool)
    ensures '.' !in filename ==> !ok
    ensures ok ==> 4 <= |filename|
  {
    match Extension(filename)
    case None => false
    case Some(ext) => Lower(ext) in AllowedExtensions
  }

  /** Splitting at the last '.' undoes joining a stem and a dot-free extension:
      whatever dots the stem holds, the extension is found again. */
  lemma ExtensionOfJoin(stem: string, ext: string)
    requires '.' !in ext
    ensures Extension(stem + "." + ext) == Some(ext)
  {
    var s := stem + "." + ext;
    assert s[|stem|] == '.' && s[|stem| + 1..] == ext;
  }

  /** Only the text after the last '.' decides, and it decides exactly through
      membership of its lower-cased form in the allowed set. */
  lemma AllowedJoin(stem: string, ext: string)
    requires '.' !in ext
    ensures AllowedFile(stem + "." + ext) <==> Lower(ext) in AllowedExtensions
  {
    ExtensionOfJoin(stem, ext);
  }

  /** Lower-casing distributes over the parts of a joined name. */
  lemma LowerJoin(stem: string, ext: string)
    ensures Lower(stem + "." + ext) == Lower(stem) + "." + Lower(ext)
  {
    var a := Lower(stem + "." + ext);
    var b := Lower(stem) + "." + Lower(ext);
    assert |a| == |b|;
    forall i | 0 <= i < |a|
      ensures a[i] == b[i]
    {
      if i < |stem| {
      } else if i == |stem| {
      } else {
        assert (stem + "." + ext)[i] == ext[i - |stem| - 1];
      }
    }
  }

  lemma LowerIdempotent(s: string)
    ensures Lower(Lower(s)) == Lower(s)
  {
    assert forall i :: 0 <= i < |s| ==> LowerChar(LowerChar(s[i])) == LowerChar(s[i]);
  }

  /** A character lower-cases to '.' exactly when it is '.'. */
  lemma DotFreeLower(s: string)
    ensures '.' in Lower(s) <==> '.' in s
  {
    if '.' in s {
      var i :| 0 <= i < |s| && s[i] == '.';
      assert Lower(s)[i] == '.';
    }
    if '.' in Lower(s) {
      var i :| 0 <= i < |s| && Lower(s)[i] == '.';
      assert s[i] == '.';
    }
  }

  /** The check is case-insensitive: a name is accepted exactly when its
      lower-cased form is. */
  lemma {:induction false} AllowedIgnoresCase(filename: string)
    ensures AllowedFile(Lower(filename)) == AllowedFile(filename)
  {
    DotFreeLower(filename);
    match Extension(filename)
    case None =>
    case Some(ext) =>
      var stem := filename[..|filename| - |ext| - 1];
      LowerJoin(stem, ext);
      DotFreeLower(ext);
      ExtensionOfJoin(Lower(stem), Lower(ext));
      LowerIdempotent(ext);
  }

  /** Two names that differ only in the case of their letters are both accepted
      or both rejected. */
  lemma SameUpToCase(a: string, b: string)
    requires Lower(a) == Lower(b)
    ensures AllowedFile(a) == AllowedFile(b)
  {
    AllowedIgnoresCase(a);
    AllowedIgnoresCase(b);
  }

  /** A trailing '.' leaves an empty extension, which is never allowed. */
  lemma TrailingDotRejected(stem: string)
    ensures !AllowedFile(stem + ".")
  {
    assert stem + "." == stem + "." + "";
    AllowedJoin(stem, "");
  }

  /** Worked case: a dangerous extension after an image one is rejected. */
  lemma DoubleExtensionRejected()
    ensures !AllowedFile("a.png.exe")
  {
    assert "a.png.exe" == "a.png" + "." + "exe";
    AllowedJoin("a.png", "exe");
    assert Lower("exe")[0] == 'e';
  }

  /** Worked case: an image extension after another one is accepted. */
  lemma LastExtensionAccepted()
    ensures AllowedFile("a.exe.png")
  {
    assert "a.exe.png" == "a.exe" + "." + "png";
    AllowedJoin("a.exe", "png");
    assert "png"[..2] == "pn" && "pn"[..1] == "p";
    assert Lower("png") == "png";
  }

  /** Worked case: an upper-case extension is accepted. */
  lemma UpperCaseAccepted()
    ensures AllowedFile("X.JPG")
  {
    assert "X.JPG" == "X" + "." + "JPG";
    AllowedJoin("X", "JPG");
    assert "JPG"[..2] == "JP" && "JP"[..1] == "J";
    assert Lower("JPG") == "jpg";
  }

  /** Worked case: a mixed-case extension is accepted. */
  lemma MixedCaseAccepted()
    ensures AllowedFile("y.Jpeg")
  {
    assert "y.Jpeg" == "y" + "." + "Jpeg";
    AllowedJoin("y", "Jpeg");
    assert "Jpeg"[..3] == "Jpe" && "Jpe"[..2] == "Jp" && "Jp"[..1] == "J";
    assert Lower("Jpeg") == "jpeg";
  }
}

=== FILE: wrappers.dfy ===
/** Optional values, used wherever the modelled code has `None`, `null` or a missing key. */
module Wrappers {

  datatype Option<+T> = None | Some(value: T) {

    /** The value, or `default` when there is none (Python's `dict.get(key, default)`). */
    function GetOr(default: T): T {
      match this
      case Some(v) => v
      case None => default
    }
  }
}
